=== FILE: README.md ===
# js-post-ui: lightbox, post form and text helpers

This project models the three pieces of logic in a client-side blog post UI. Everything else in
that UI is DOM and HTTP glue.

- **The image lightbox** (`registerLightbox`). A click on an image carrying a `data-album`
  attribute re-queries the document for all images of that album, in document order. It
  remembers the clicked image's position and writes that image's `src` into the modal. Prev and
  next move the position with wrap-around. Registration is guarded by a `data-registered` marker
  on the modal. The model is an immutable state `Lightbox(album, index, shown, opens)` with one
  transition function per listener, plus a `Page` record for registration.
- **The post form** (`initPostForm` and its helpers):
  - the yup schema, as plain rules over strings: title required, author required, and the author
    must have at least two words of three or more characters;
  - the loop that writes only the first error of each field;
  - collection of the `FormData` pairs, where the last value of a key wins and `id` is then
    overwritten;
  - show/hide of the image-source controls;
  - the `submitting` flag that keeps a second submit out while one is being handled.
- **`truncateText` and `randomNumber`**. `truncateText` uses the JavaScript `slice` rule, where a
  negative end counts back from the end of the string. For `randomNumber`, the `n <= 0` guard is
  modelled and the random draw is a parameter.

Notable facts proved about the model:

- Once an album is loaded, the lightbox index stays inside it through any sequence of events,
  and the displayed image is the one at the index (`RunCoherent`).
- Next and prev are inverse to each other. n clicks of either, on an album of n images, come
  back to the start.
- The author test, which is phrased with `split(' ')` and `filter`, accepts exactly the names
  where some space has three consecutive non-space characters on each side of it
  (`AuthorAcceptedIffRuns`).
- `truncateText` never returns a result within `maxLength` once it shortens. For
  `maxLength >= 1` the result is `maxLength + 2` characters long. For a text one character over
  a positive limit, the result is longer than the text itself.

Three error paths of the code are modelled as the code runs them:

- Prev/next on an empty album evaluate `% 0`, which is NaN, and `imgList[NaN].src` throws a
  TypeError. `Next` and `Prev` return `Threw` in that case. The empty album is the state right
  after registration, before any album image was clicked. `StepCoherent` and `NoThrowAfterOpen`
  show that once an album image has been clicked, no listener throws again.
- If the clicked image were missing from the queried album, `findIndex` would return -1 and
  `showImageAtIndex(-1)` would throw. For album names without `"`, `\`, a line break or U+0000, the
  selector matches the raw name and the clicked image always matches it, so `Click` proves
  this cannot happen. Names with those characters are not modelled (see "## Left out").
- A nullish `defaultValues` makes `defaultValues.id` throw after `submitting` has been set.
  `Submit` moves to the `Stuck` stage, the same one a rejected `onSubmit` leads to, and
  `NullishDefaultsStick` shows the form then never submits again.

## Model

| member | source | states |
|---|---|---|
| `Common.TruncateText` | js/utils/common.js:1-5 | A text that fits in `maxLength` is returned unchanged. A shortened text is a prefix of the original followed by "...". With `maxLength >= 1` the kept prefix is exactly the first `maxLength - 1` characters and the result has length `maxLength + 2`. With `maxLength <= 0` the slice end counts back from the end of the text, clamped at 0. |
| `Common.TruncatedExceedsLimit` | js/utils/common.js:4 | A shortened result is always longer than `maxLength`. For a text exactly one character over the limit, it is longer than the text. |
| `Common.TruncateIdempotent` | js/utils/common.js:1-5 | With a positive limit, truncating a truncated text again changes nothing. |
| `Common.TruncateNonPositiveNotIdempotent` | js/utils/common.js:4 | With limit 0, "abcd" becomes "abc...", and truncating that again gives "abc.....". |
| `Common.RandomNumber` | js/utils/common.js:28-33 | The result is -1 exactly when `n <= 0`. Otherwise it lies in [0, n]. |
| `Lightbox.QueryFrom` | js/utils/lightBox.js:34 | The result holds every matching `img[data-album=name]` element from position `from` onwards, each once, in document order, with its `src`. |
| `Lightbox.QueryAlbum` | js/utils/lightBox.js:34 | The queried album holds exactly the document's images of that album, in document order. |
| `Lightbox.FindIndex` | js/utils/lightBox.js:35 | The result is -1 iff the element is not in the album. Otherwise it is the first position holding the element. |
| `Lightbox.ShowCurrent` | js/utils/lightBox.js:23-25 | Display is defined only for `0 <= index < n`. It makes the modal show the `src` of `album[index]` and leaves the album, the index and the open count as they were. |
| `Lightbox.JsRem` | js/utils/lightBox.js:43-48 | JavaScript's `%` for a positive divisor: the result has the sign of the dividend and is smaller than the divisor in size. A dividend already in range is returned as is, and one in [n, 2n) loses one n. |
| `Lightbox.JsRemTruncates` | js/utils/lightBox.js:43-48 | `JsRem` is Dafny's remainder for a non-negative dividend and the negated remainder of `-a` for a negative one, i.e. division truncating toward zero. |
| `Lightbox.Display` | js/utils/lightBox.js:23-25 | The new index is stored. The handler completes iff it addresses an image, in which case that image's `src` is shown. Otherwise it throws before the shown image changes. The album and the open count stay. |
| `Lightbox.Click` | js/utils/lightBox.js:28-40 | The guard (`IsAlbumImage`): a click whose target is not an IMG with a non-empty `data-album` leaves the state unchanged. Otherwise the album becomes all images of that album in document order, the index becomes the clicked image's position (always found, for the album names modelled), that image is shown, and the modal is opened once more. |
| `Lightbox.Next` | js/utils/lightBox.js:47-50 | On an empty album the handler throws before the modal's image is written, so the shown image, the album and the open count stay. From an index in [0, n) it moves to the next index, wrapping from the last to the first, and shows that image. The album is unchanged. |
| `Lightbox.Prev` | js/utils/lightBox.js:42-45 | On an empty album the handler throws before the modal's image is written, so the shown image, the album and the open count stay. From an index in [0, n) it moves to the previous index, wrapping from the first to the last, and shows that image. The album is unchanged. |
| `Lightbox.StepCoherent` | js/utils/lightBox.js:28-50 | Every event keeps the invariant: the album is empty, or the index is in range and the shown image is the one at the index. Once the album is non-empty, no event throws and the album stays non-empty. |
| `Lightbox.RunCoherent` | js/utils/lightBox.js:19-50 | Any sequence of events from a coherent state, such as the state right after registration, ends in a coherent state. |
| `Lightbox.NoThrowAfterOpen` | js/utils/lightBox.js:34-50 | After an album is loaded, no later event of any sequence throws. |
| `Lightbox.NextPrevInverse` | js/utils/lightBox.js:42-50 | Prev after next, and next after prev, return to the original state. |
| `Lightbox.NextTimesIndex` | js/utils/lightBox.js:47-50 | k next clicks, for k up to n, move the index k places forward, wrapping past the last image. |
| `Lightbox.PrevTimesIndex` | js/utils/lightBox.js:42-45 | k prev clicks, for k up to n, move the index k places backward, wrapping past the first image. |
| `Lightbox.FullCycle` | js/utils/lightBox.js:42-50 | n next clicks, or n prev clicks, on an album of n images return to the starting state. |
| `Lightbox.WalkthroughOpen` | js/utils/lightBox.js:28-40 | On a document with album [A, B, C], clicking B loads all three images and shows B at index 1. |
| `Lightbox.WalkthroughNavigate` | js/utils/lightBox.js:42-50 | From B at index 1, next shows C at index 2, next wraps to A at index 0, and prev wraps back to C at index 2. |
| `Lightbox.RegisterLightbox` | js/utils/lightBox.js:6-53 | A missing modal, a set marker (`IsRegistered`: any non-empty value, as `Boolean` reads it) or a missing image/prev/next element means nothing is attached and nothing is marked. Otherwise exactly one lightbox is attached, the marker is set, and nothing else about the modal changes. |
| `Lightbox.RegisterIdempotent` | js/utils/lightBox.js:10-11 | Registering a second time changes nothing. |
| `Lightbox.RegisterTimesOnce` | js/utils/lightBox.js:6-53 | Any number of registrations has the effect of one. On a page without a lightbox, at most one is ever attached. |
| `PostSchema.Split` | js/utils/post-form.js:36 | `split(' ')` returns at least one piece, and no piece contains a space. |
| `PostSchema.JoinSplit` | js/utils/post-form.js:36 | Joining the pieces with a space gives back the split string. |
| `PostSchema.SplitJoin` | js/utils/post-form.js:36 | Splitting a join of space-free pieces gives back the pieces. |
| `PostSchema.SplitConcat` | js/utils/post-form.js:36 | Splitting at a space gives the pieces of the left part followed by the pieces of the right part. |
| `PostSchema.HasWordIffRun` | js/utils/post-form.js:36 | A string holds a word the filter keeps (non-empty, length at least 3) iff it holds three consecutive non-space characters. |
| `PostSchema.AuthorAcceptedIffRuns` | js/utils/post-form.js:33-37 | The 'at-least-two-words' test as written (`AuthorAccepted`: split at spaces, keep the pieces of length 3 or more, count at least two) accepts an author iff some space in it has three consecutive non-space characters on each side. |
| `PostSchema.SingleWordRejected` | js/utils/post-form.js:33-37 | An author without a space is rejected, however long. |
| `PostSchema.TwoWordsAccepted` | js/utils/post-form.js:33-37 | Two space-free words of at least three characters, joined by one space, are accepted. |
| `PostSchema.EmptyAuthorNotAccepted` | js/utils/post-form.js:30-37 | The empty author fails the two-words test as well as the required rule. |
| `PostSchema.NameOf` | js/utils/post-form.js:18-25 | Each string denotes one control name: a name with its own constructor exactly when the string is its spelling, otherwise the text itself. |
| `PostSchema.Spelling` | js/utils/post-form.js:18-25 | The object key a name stands for: its own text, or the spelling of its constructor. |
| `PostSchema.NameOfSpelling` | js/utils/post-form.js:18-25 | Reading back the key of a name gives the same name, so two names are the same key exactly when they are equal. |
| `PostSchema.SpellingOfNameOf` | js/utils/post-form.js:18-25 | Every string is the key of the name it denotes. |
| `PostSchema.SchemaErrors` | js/utils/post-form.js:28-38 | Errors concern only title and author. There are none iff the title is non-empty and the author passes the test. The first title error is "Please enter title" iff the title is empty. The first author error is "Please enter author" for an empty author, "Please enter at least two words" for a non-empty author that fails the test, and there is none otherwise. The description carries no rule. |
| `PostSchema.FirstError` | js/utils/post-form.js:80-89 | The result is None iff no error has the path. Otherwise it is the message of the earliest error with that path. |
| `PostForm.CollectInto` | js/utils/post-form.js:18-25 | Writing the entries one by one into a starting object gives the starting keys plus the entries' keys. A key takes the value of its last entry. A starting key that no entry mentions keeps its value. |
| `PostForm.Collect` | js/utils/post-form.js:18-25 | The collected values have exactly the keys of the entries. Each key holds the value of the last entry with that key. |
| `PostForm.SubmitValues` | js/utils/post-form.js:172-174 | The keys are those of the entries plus `id`. `id` always holds the default values' id, `undefined` when there is none. Every other key holds its last entry's value. |
| `PostForm.ClearErrors` | js/utils/post-form.js:73 | The listed fields present in the form get the empty message. Every other field keeps its message, and no field is added. |
| `PostForm.ClearErrorsIdempotent` | js/utils/post-form.js:73 | Clearing the same fields twice is clearing them once. |
| `PostForm.ValidateAfterReset` | js/utils/post-form.js:70-97 | Validating a form whose reset fields are already cleared gives the same messages, validity and marker as validating the form itself. |
| `PostForm.SetFieldError` | js/utils/post-form.js:62-68 | A control in the form gets the message. A name with no control changes nothing, and no control is added. |
| `PostForm.ReportErrors` | js/utils/post-form.js:80-89 | Each field not yet logged gets the message of the first error for its path. Later errors on the same path are skipped. Fields with no error, or already logged, are unchanged. |
| `PostForm.ValidatePostForm` | js/utils/post-form.js:70-97 | Title and author show their first schema error, or nothing. `imageUrl` and `image` are cleared. Other fields are untouched. The result is valid iff the browser's constraints pass and no field carries a message. The form is marked `was-validated` when invalid. |
| `PostForm.ValidIff` | js/utils/post-form.js:70-97 | On a form with title and author fields and no stale errors elsewhere, validation passes iff the browser's constraints pass, the title is non-empty, and the author has a space with a three-character run on each side. |
| `PostForm.RenderImageSourceControl` | js/utils/post-form.js:126-131 | Each control is hidden iff its `data-image-source` differs from the selected value. Its source is kept. |
| `PostForm.RenderLastWins` | js/utils/post-form.js:126-131 | Rendering for one selection and then another equals rendering for the second alone. |
| `PostForm.RenderShowsSelected` | js/utils/post-form.js:126-131 | Selecting picsum or upload shows the controls of that source and hides those of the other. |
| `PostForm.Submit` | js/utils/post-form.js:164-176 | A submit while `submitting` is set changes nothing. Otherwise `submitting` and the loading button are set. With `defaultValues` present, the messages of title, author, imageUrl and image are already cleared (line 73 runs before the first `await`), and validation of the collected values (with the default id) is awaited. With a nullish `defaultValues` the read of its `id` throws, the form is untouched, and the handler is stuck with `submitting` set. |
| `PostForm.ValidationSettled` | js/utils/post-form.js:176-180 | `onSubmit` receives the values iff validation passed. A failed validation finishes the handler (`Finish`, lines 179-180): `submitting` and the loading button are cleared. |
| `PostForm.SaveSettled` | js/utils/post-form.js:177-180 | A resolved (or absent) `onSubmit` finishes the handler: `submitting` and the loading button are cleared. A rejected one skips lines 179-180 and leaves `submitting` set. In both cases the form and the saved values are unchanged. |
| `PostForm.SubmitStepGuarded` | js/utils/post-form.js:162-181 | Each event keeps `submitting` and the loading button set exactly while a handler is in progress, and adds at most one `onSubmit` call. |
| `PostForm.SubmitRunGuarded` | js/utils/post-form.js:162-181 | Any sequence of events keeps that invariant, and makes no more `onSubmit` calls than it has events. |
| `PostForm.FreshFormGuarded` | js/utils/post-form.js:162-181 | From a freshly initialised form (`submitting = false`), any sequence of events keeps the invariant and makes no more `onSubmit` calls than it has events. |
| `PostForm.SubmitsIgnoredWhileBusy` | js/utils/post-form.js:167 | While `submitting` is set, any number of further submits changes nothing. |
| `PostForm.StuckIsFinal` | js/utils/post-form.js:167-180 | Once the handler is stuck (a rejected `onSubmit` or a thrown TypeError), no later event changes the state. |
| `PostForm.HandledSubmitClears` | js/utils/post-form.js:164-181 | From an idle form, a submit whose validation settles and whose `onSubmit` resolves leaves `submitting` and the loading button cleared. `onSubmit` has received the values iff validation passed. |
| `PostForm.SubmitThenValidate` | js/utils/post-form.js:164-180 | A submit followed by the settling of its validation leaves the form as validating the original form would. `onSubmit` gets the values iff that validation passed, and otherwise the handler has finished. |
| `PostForm.NullishDefaultsStick` | js/utils/post-form.js:167-174 | Without `defaultValues`, the first submit on an idle form leaves `submitting` and the loading button set for good, and `onSubmit` is never called, whatever events follow. |

## Left out

- js/api/axiosClient.js, js/utils/search.js, js/utils/post.js and js/post-detail.js. They are HTTP configuration, debounced input wiring, template rendering and date formatting over browser and library APIs.
- `setFormValues`, `setFieldValue`, `setTextContent` and `setBackgroundImage`. These are plain DOM writes. The `.invalid-feedback` text is written together with the custom validity, so the model keeps one message per field.
- `initRandomImage` and `initUploadImage`. Their effects are a picsum URL built from `randomNumber(1000)` and `URL.createObjectURL`, which are foreign calls.
- The `change` listener wiring of `initRadioImageSource`. Only the `renderImageSourceControl` it calls is modelled.
- `showLoading` and `hideLoading`. Only the disabled/loading state is kept; the button texts are not.
- Bootstrap's `Modal`. Opening is counted in `opens`. Closing happens inside Bootstrap and is not modelled.
- `console.log` calls.
- Common.RandomNumber: the random part `Math.round(Math.random() * n)` is floating point. It is the parameter `draw`, assumed to lie in [0, n] as it does for an integer `n > 0`. Non-integer `n` is not modelled.
- Common.TruncateText: `maxLength` is an integer. NaN or fractional limits are not modelled. Lengths count characters, not UTF-16 code units.
- Lightbox.Click: each album entry keeps the `src` its element had when the album was queried. A later change to an image's `src` is not tracked.
- Lightbox.Click: the selector `img[data-album="…"]` is modelled as matching the raw album name. That holds only for names without `"`, `\`, a line break or U+0000. A backslash starts a CSS escape, and CSS preprocessing turns U+0000 into U+FFFD. In both cases the selector may not match the clicked image. Then `imgList` is replaced, `findIndex` gives -1, and `showImageAtIndex(-1)` throws. A quote or a line break either makes `querySelectorAll` throw a SyntaxError before `imgList` changes, or gives a selector that misses the clicked image (the -1 path). For example, the name `x"],img[data-album="y` yields a valid selector list. None of these paths is modelled.
- Lightbox: several lightboxes registered on different modals each have their own closed-over state. The model follows one of them.
- Lightbox: after a throw on an empty album, the source's index holds NaN. The model keeps the prior state there, because no later event reads that index before a click overwrites it.
- Lightbox: an element's tag is compared with "IMG" as the browser reports it for HTML images. Other namespaces are not modelled.
- PostSchema.AuthorAccepted: `x.length >= 3` counts UTF-16 code units, while the model counts characters. A word of two characters outside the Basic Multilingual Plane has length 4 in JavaScript and passes, but it fails in the model.
- PostSchema.SchemaErrors: yup itself is not modelled. Its errors are assumed to come in the order the rules are declared. A missing or non-text title or author is read as the empty string (`PostForm.TextOf`). The commented-out image rules are not live code.
- Control names are the type `FieldName`, not free strings. The names the form code refers to have their own constructor, and any other name is kept as text. A text that spells one of those names is excluded (`Canonical`), so each string has exactly one representation (`NameOfSpelling`, `SpellingOfNameOf`). `Collect` itself works for any key type.
- PostForm.Collect (also CollectInto and SubmitValues): a control named `__proto__` is kept as an ordinary key. In JavaScript, `formValues["__proto__"] = value` calls the prototype setter instead. A text value is dropped, a file replaces the object's prototype, and no own key is created. So "exactly the keys of the entries" does not hold for that name.
- PostForm.ReportErrors: `errorLog` is a plain object, so a path that names an `Object.prototype` property (such as `constructor`) would count as already logged. The schema reports only `title` and `author`, so the model uses a set.
- PostForm.ValidatePostForm: `checkValidity` is reduced to the custom messages plus one flag for the browser's own constraints.
- PostForm.Submit: `event.preventDefault()` and the async scheduling itself are not modelled. The two `await`s are the settle events `ValidationDone` and `SaveDone`.

=== FILE: common.dfy ===
/**
 Pure string and number helpers of the page (js/utils/common.js):
 `truncateText` and the guard of `randomNumber`.
 */
module Common {

  /** The marker `truncateText` appends to a shortened text. */
  const Ellipsis: string := "..."

  /** The end offset `String.prototype.slice(0, end)` uses on a string of length
      `len`: a negative end counts back from the end of the string, and the
      offset is clamped to [0, len]. */
  function SliceEnd(len: nat, end: int): (e: nat)
    ensures e <= len
  {
    if end < 0 then (if len + end < 0 then 0 else len + end)
    else if end <= len then end
    else len
  }

  /** `s.slice(0, end)` */
  function SlicePrefix(s: string, end: int): (r: string)
    ensures r <= s
  {
    s[..SliceEnd(|s|, end)]
  }

  /** `truncateText(text, maxLength)`: a text that fits is returned as is,
      otherwise its first `maxLength - 1` characters followed by "...". */
  function TruncateText(text: string, maxLength: int): (r: string)
    // a text that fits is untouched
    ensures |text| <= maxLength ==> r == text
    // a shortened text is a prefix of the original followed by the ellipsis
    ensures maxLength < |text| ==>
              |r| >= |Ellipsis| && r[|r| - |Ellipsis|..] == Ellipsis && r[..|r| - |Ellipsis|] <= text
    // with a positive limit the kept prefix is exactly maxLength - 1 characters long
    ensures 1 <= maxLength < |text| ==>
              |r| == maxLength + 2 && r[..maxLength - 1] == text[..maxLength - 1]
    // with a limit of zero or less the slice end counts back from the end of the text
    ensures maxLength <= 0 && maxLength < |text| ==>
              |r| == |Ellipsis| + (if |text| + maxLength - 1 < 0 then 0 else |text| + maxLength - 1)
  {
    if |text| <= maxLength then text
    else SlicePrefix(text, maxLength - 1) + Ellipsis
  }

  /** Shortening always overshoots the limit, whatever its sign, and for a
      text just one character too long the result is even longer than the
      text itself. */
  lemma TruncatedExceedsLimit(text: string, maxLength: int)
    requires maxLength < |text|
    ensures |TruncateText(text, maxLength)| > maxLength
    ensures |text| == maxLength + 1 ==> |TruncateText(text, maxLength)| > |text|
  {
  }

  /** With a positive limit, truncating an already truncated text changes nothing. */
  lemma {:induction false} TruncateIdempotent(text: string, maxLength: int)
    requires 1 <= maxLength
    ensures TruncateText(TruncateText(text, maxLength), maxLength) == TruncateText(text, maxLength)
  {
    var r := TruncateText(text, maxLength);
    if maxLength < |text| {
      assert r == text[..maxLength - 1] + Ellipsis;
      assert r[..maxLength - 1] == text[..maxLength - 1];
      assert TruncateText(r, maxLength) == r[..maxLength - 1] + Ellipsis;
    }
  }

  /** With a limit of zero or less the operation is not idempotent: a second
      call keeps more characters of the first result and appends another
      ellipsis. */
  lemma TruncateNonPositiveNotIdempotent()
    ensures TruncateText("abcd", 0) == "abc..."
    ensures TruncateText(TruncateText("abcd", 0), 0) == "abc....."
  {
    assert TruncateText("abcd", 0) == "abc" + Ellipsis;
    assert "abc..."[..5] == "abc..";
  }

  /** `randomNumber(n)`: the value -1 for a non-positive bound, otherwise the
      rounded random draw. `draw` stands for `Math.round(Math.random() * n)`,
      which for an integer n > 0 lies in [0, n]. */
  function RandomNumber(n: int, draw: nat): (r: int)
    requires 0 < n ==> draw <= n
    // -1 is returned exactly when the bound is not positive
    ensures r == -1 <==> n <= 0
    ensures 0 < n ==> 0 <= r <= n
  {
    if n <= 0 then -1 else draw
  }
}

=== FILE: lightbox.dfy ===
/**
 The image lightbox of js/utils/lightBox.js: a modal that shows one image of an
 album at a time, opened by a click on any album image and stepped through with
 prev/next buttons that wrap around.

 The document is a sequence of elements in document order; an element's
 identity (`===` in the source) is its position in that sequence.
 */
module Lightbox {
  import opened Wrappers

  /** `tagName` of an HTML image element */
  const ImgTag: string := "IMG"

  /** The part of a DOM element the lightbox looks at: its tag, its
      `data-album` attribute (None when absent) and its `src`. */
  datatype Element = Element(tag: string, album: Option<string>, src: string)

  type Document = seq<Element>

  /** The click guard: an IMG whose `data-album` is present and not empty
      (the empty string is falsy). */
  predicate IsAlbumImage(e: Element) {
    e.tag == ImgTag && e.album.Some? && e.album.value != ""
  }

  /** The selector `img[data-album="name"]` */
  predicate Matches(e: Element, name: string) {
    e.tag == ImgTag && e.album == Some(name)
  }

  /** An entry of the queried album: the element (by document position) and
      the `src` it had when the album was queried. */
  datatype Image = Image(node: nat, src: string)

  /** `album` is what `querySelectorAll` returns for album `name`: matching
      elements only, each once, in document order, and none left out. */
  ghost predicate IsAlbumOf(doc: Document, name: string, album: seq<Image>) {
    && (forall j :: 0 <= j < |album| ==>
          album[j].node < |doc| && Matches(doc[album[j].node], name) && album[j].src == doc[album[j].node].src)
    && (forall j, k :: 0 <= j < k < |album| ==> album[j].node < album[k].node)
    && (forall x :: 0 <= x < |doc| && Matches(doc[x], name) ==> exists j :: 0 <= j < |album| && album[j].node == x)
  }

  /** The matching elements of `doc[from..]`, in document order. */
  function QueryFrom(doc: Document, name: string, from: nat): (r: seq<Image>)
    requires from <= |doc|
    ensures forall j :: 0 <= j < |r| ==>
              from <= r[j].node < |doc| && Matches(doc[r[j].node], name) && r[j].src == doc[r[j].node].src
    ensures forall j, k :: 0 <= j < k < |r| ==> r[j].node < r[k].node
    ensures forall x :: from <= x < |doc| && Matches(doc[x], name) ==> exists j :: 0 <= j < |r| && r[j].node == x
    decreases |doc| - from
  {
    if from == |doc| then []
    else if Matches(doc[from], name) then
      var rest := QueryFrom(doc, name, from + 1);
      ConsKeepsAlbum(doc, name, from, rest);
      [Image(from, doc[from].src)] + rest
    else QueryFrom(doc, name, from + 1)
  }

  /** Putting the match at `from` in front of the matches after it keeps the
      three properties of the query. */
  lemma ConsKeepsAlbum(doc: Document, name: string, from: nat, rest: seq<Image>)
    requires from < |doc| && Matches(doc[from], name)
    requires forall j :: 0 <= j < |rest| ==>
               from + 1 <= rest[j].node < |doc| && Matches(doc[rest[j].node], name) && rest[j].src == doc[rest[j].node].src
    requires forall j, k :: 0 <= j < k < |rest| ==> rest[j].node < rest[k].node
    requires forall x :: from + 1 <= x < |doc| && Matches(doc[x], name) ==> exists j :: 0 <= j < |rest| && rest[j].node == x
    ensures var r := [Image(from, doc[from].src)] + rest;
      && (forall j, k :: 0 <= j < k < |r| ==> r[j].node < r[k].node)
      && (forall x :: from <= x < |doc| && Matches(doc[x], name) ==> exists j :: 0 <= j < |r| && r[j].node == x)
  {
    var r := [Image(from, doc[from].src)] + rest;
    forall x | from <= x < |doc| && Matches(doc[x], name)
      ensures exists j :: 0 <= j < |r| && r[j].node == x
    {
      if x == from {
        assert r[0].node == x;
      } else {
        var j :| 0 <= j < |rest| && rest[j].node == x;
        assert r[j + 1].node == x;
      }
    }
  }

  /** `document.querySelectorAll('img[data-album="name"]')` */
  function QueryAlbum(doc: Document, name: string): (r: seq<Image>)
    ensures IsAlbumOf(doc, name, r)
  {
    QueryFrom(doc, name, 0)
  }

  /** `[...album].findIndex((x) => x === target)`: the first position holding
      `node`, or -1 when there is none. */
  function FindIndex(album: seq<Image>, node: nat): (r: int)
    ensures -1 <= r < |album|
    ensures r == -1 <==> forall j :: 0 <= j < |album| ==> album[j].node != node
    ensures 0 <= r ==> album[r].node == node && forall j :: 0 <= j < r ==> album[j].node != node
  {
    if |album| == 0 then -1
    else if album[0].node == node then 0
    else
      var k := FindIndex(album[1..], node);
      if k == -1 then -1 else k + 1
  }

  /** The closure state of one registered lightbox: the current album, the
      current index, the `src` last written to the modal's image element (None
      while the lightbox has not written one) and how often the modal was shown. */
  datatype Lightbox = Lightbox(album: seq<Image>, index: int, shown: Option<string>, opens: nat)

  /** The state right after registration: an empty album and index 0. */
  const Initial: Lightbox := Lightbox([], 0, None, 0)

  /** What a handler did: it ran to completion, or it threw a TypeError
      (`imgList[index]` was undefined) after updating the state. */
  datatype Outcome = Handled(state: Lightbox) | Threw(state: Lightbox)

  /** `showImageAtIndex(currentIndex)`: only defined for an index inside the
      album; any other index makes `imgList[index].src` throw. */
  function ShowCurrent(s: Lightbox): (r: Lightbox)
    requires 0 <= s.index < |s.album|
    ensures r.shown == Some(s.album[s.index].src)
    ensures r.album == s.album && r.index == s.index && r.opens == s.opens
  {
    s.(shown := Some(s.album[s.index].src))
  }

  /** The remainder of a non-negative `a` divided by `n`, by repeated subtraction. */
  function NatRem(a: nat, n: nat): (r: nat)
    requires n > 0
    ensures r < n
    ensures a < n ==> r == a
    ensures n <= a < n + n ==> r == a - n
    decreases a
  {
    if a < n then a else NatRem(a - n, n)
  }

  /** JavaScript's `a % n` on integers, n > 0: the remainder takes the sign of `a`. */
  function JsRem(a: int, n: int): (r: int)
    requires n > 0
    ensures a >= 0 ==> 0 <= r < n
    ensures a < 0 ==> -n < r <= 0
    ensures -n < a < n ==> r == a
    ensures n <= a < n + n ==> r == a - n
  {
    if a >= 0 then NatRem(a, n) else -(NatRem(-a, n) as int)
  }

  /** A remainder is determined by any quotient-remainder split of `a`. */
  lemma ModUnique(a: int, n: int, q: int, r: int)
    requires n > 0 && 0 <= r < n && a == n * q + r
    ensures a % n == r
  {
    var q0, r0 := a / n, a % n;
    assert a == n * q0 + r0;
    var d := q - q0;
    assert n * q == n * q0 + n * d;
    MulBounds(n, d);
  }

  /** A non-zero multiple of n is at least n away from 0. */
  lemma MulBounds(n: int, d: int)
    requires n > 0
    ensures d >= 1 ==> n * d >= n
    ensures d <= -1 ==> n * d <= -n
  {
    assert n * d == n * (d - 1) + n;
    assert n * d == n * (d + 1) - n;
  }

  /** Repeated subtraction is Dafny's (Euclidean) remainder on non-negative operands. */
  lemma {:induction false} NatRemIsMod(a: nat, n: nat)
    requires n > 0
    ensures NatRem(a, n) == a % n
    decreases a
  {
    if a < n {
      ModUnique(a, n, 0, a);
    } else {
      NatRemIsMod(a - n, n);
      var q := (a - n) / n;
      assert a == n * (q + 1) + (a - n) % n;
      ModUnique(a, n, q + 1, (a - n) % n);
    }
  }

  /** `JsRem` truncates toward zero: on a negative `a` it is the negated
      remainder of `-a`, where Dafny's `%` would be non-negative. */
  lemma JsRemTruncates(a: int, n: int)
    requires n > 0
    ensures a >= 0 ==> JsRem(a, n) == a % n
    ensures a < 0 ==> JsRem(a, n) == -((-a) % n)
  {
    if a >= 0 {
      NatRemIsMod(a, n);
    } else {
      NatRemIsMod(-a, n);
    }
  }

  /** Writes the newly computed index and displays it, or throws when the index
      does not address an image. */
  function Display(s: Lightbox, k: int): (r: Outcome)
    ensures r.Handled? <==> 0 <= k < |s.album|
    ensures r.state.album == s.album && r.state.index == k && r.state.opens == s.opens
    ensures r.Handled? ==> r.state.shown == Some(s.album[k].src)
    // the throw happens before `imgElement.src` is written
    ensures r.Threw? ==> r.state.shown == s.shown
  {
    if 0 <= k < |s.album| then Handled(ShowCurrent(s.(index := k))) else Threw(s.(index := k))
  }

  /** The document click handler. A click on anything but an album image is
      ignored; otherwise the album is queried afresh, the index becomes the
      clicked image's position, that image is displayed and the modal shown. */
  function Click(s: Lightbox, doc: Document, target: nat): (r: Lightbox)
    requires target < |doc|
    // the guard: anything but an IMG with a non-empty data-album changes nothing
    ensures !IsAlbumImage(doc[target]) ==> r == s
    ensures IsAlbumImage(doc[target]) ==>
              && IsAlbumOf(doc, doc[target].album.value, r.album)
              && 0 <= r.index < |r.album|
              && r.album[r.index].node == target
              && r.shown == Some(doc[target].src)
              && r.opens == s.opens + 1
  {
    if !IsAlbumImage(doc[target]) then s
    else
      var album := QueryAlbum(doc, doc[target].album.value);
      var i := FindIndex(album, target);
      assert 0 <= i;
      ShowCurrent(Lightbox(album, i, s.shown, s.opens + 1))
  }

  /** The next button: `(index + 1) % n`, then display. */
  function Next(s: Lightbox): (r: Outcome)
    // an empty album has no next image: `% 0` is NaN and the display throws
    ensures |s.album| == 0 ==> r.Threw?
    // the throw comes before `imgElement.src` is written: nothing shown changes
    ensures |s.album| == 0 ==> r.state.album == s.album && r.state.shown == s.shown && r.state.opens == s.opens
    ensures 0 <= s.index < |s.album| ==>
              && r.Handled?
              && r.state.album == s.album && r.state.opens == s.opens
              && r.state.index == (if s.index == |s.album| - 1 then 0 else s.index + 1)
              && r.state.shown == Some(s.album[r.state.index].src)
  {
    if |s.album| == 0 then Threw(s)
    else Display(s, JsRem(s.index + 1, |s.album|))
  }

  /** The prev button: `(index - 1 + n) % n`, then display. */
  function Prev(s: Lightbox): (r: Outcome)
    // an empty album has no previous image: `% 0` is NaN and the display throws
    ensures |s.album| == 0 ==> r.Threw?
    // the throw comes before `imgElement.src` is written: nothing shown changes
    ensures |s.album| == 0 ==> r.state.album == s.album && r.state.shown == s.shown && r.state.opens == s.opens
    ensures 0 <= s.index < |s.album| ==>
              && r.Handled?
              && r.state.album == s.album && r.state.opens == s.opens
              && r.state.index == (if s.index == 0 then |s.album| - 1 else s.index - 1)
              && r.state.shown == Some(s.album[r.state.index].src)
  {
    if |s.album| == 0 then Threw(s)
    else Display(s, JsRem(s.index - 1 + |s.album|, |s.album|))
  }

  /** The lightbox invariant: either no album is loaded yet, or the index lies
      inside the album and the displayed image is the one at the index. */
  ghost predicate Coherent(s: Lightbox) {
    |s.album| == 0 || (0 <= s.index < |s.album| && s.shown == Some(s.album[s.index].src))
  }

  /** The events the lightbox's three listeners react to. */
  datatype Event = ClickOn(doc: Document, target: nat) | PrevClick | NextClick

  predicate WellFormed(e: Event) {
    e.ClickOn? ==> e.target < |e.doc|
  }

  /** One event. A handler that throws leaves the state it had written so far;
      the page carries on with later events. */
  function Step(s: Lightbox, e: Event): Outcome
    requires WellFormed(e)
  {
    match e
    case ClickOn(doc, target) => Handled(Click(s, doc, target))
    case PrevClick => Prev(s)
    case NextClick => Next(s)
  }

  function Run(s: Lightbox, events: seq<Event>): Lightbox
    requires forall i :: 0 <= i < |events| ==> WellFormed(events[i])
    decreases |events|
  {
    if |events| == 0 then s else Run(Step(s, events[0]).state, events[1..])
  }

  /** Every event keeps the invariant, and once an album is loaded no
      prev or next click throws any more. */
  lemma StepCoherent(s: Lightbox, e: Event)
    requires Coherent(s) && WellFormed(e)
    ensures Coherent(Step(s, e).state)
    ensures |s.album| > 0 ==> Step(s, e).Handled? && |Step(s, e).state.album| > 0
  {
  }

  /** Every state reached from registration satisfies the invariant. */
  lemma {:induction false} RunCoherent(s: Lightbox, events: seq<Event>)
    requires Coherent(s)
    requires forall i :: 0 <= i < |events| ==> WellFormed(events[i])
    ensures Coherent(Run(s, events))
    decreases |events|
  {
    if |events| > 0 {
      StepCoherent(s, events[0]);
      RunCoherent(Step(s, events[0]).state, events[1..]);
    }
  }

  /** After an album image was clicked, the lightbox never throws again. */
  lemma {:induction false} NoThrowAfterOpen(s: Lightbox, events: seq<Event>)
    requires Coherent(s) && |s.album| > 0
    requires forall i :: 0 <= i < |events| ==> WellFormed(events[i])
    ensures forall i :: 0 <= i < |events| ==> Step(Run(s, events[..i]), events[i]).Handled?
    decreases |events|
  {
    if |events| > 0 {
      StepCoherent(s, events[0]);
      var s' := Step(s, events[0]).state;
      NoThrowAfterOpen(s', events[1..]);
      forall i | 0 <= i < |events|
        ensures Step(Run(s, events[..i]), events[i]).Handled?
      {
        if i > 0 {
          assert events[..i][0] == events[0];
          assert events[..i][1..] == events[1..][..i - 1];
          assert events[1..][i - 1] == events[i];
        }
      }
    }
  }

  /** Next then prev, and prev then next, come back to the same state. */
  lemma NextPrevInverse(s: Lightbox)
    requires Coherent(s) && |s.album| > 0
    ensures Prev(Next(s).state) == Handled(s)
    ensures Next(Prev(s).state) == Handled(s)
  {
  }

  /** `k` consecutive next clicks. */
  function NextTimes(s: Lightbox, k: nat): Lightbox
    decreases k
  {
    if k == 0 then s else NextTimes(Next(s).state, k - 1)
  }

  /** `k` consecutive prev clicks. */
  function PrevTimes(s: Lightbox, k: nat): Lightbox
    decreases k
  {
    if k == 0 then s else PrevTimes(Prev(s).state, k - 1)
  }

  /** Up to n next clicks move the index forward that many places, wrapping
      past the last image to the first. */
  lemma {:induction false} NextTimesIndex(s: Lightbox, k: nat)
    requires Coherent(s) && |s.album| > 0 && k <= |s.album|
    ensures var i, n := s.index, |s.album|;
      NextTimes(s, k) == ShowCurrent(s.(index := if i + k < n then i + k else i + k - n))
    decreases k
  {
    if k > 0 {
      NextTimesIndex(Next(s).state, k - 1);
    }
  }

  /** Up to n prev clicks move the index backward that many places, wrapping
      past the first image to the last. */
  lemma {:induction false} PrevTimesIndex(s: Lightbox, k: nat)
    requires Coherent(s) && |s.album| > 0 && k <= |s.album|
    ensures var i, n := s.index, |s.album|;
      PrevTimes(s, k) == ShowCurrent(s.(index := if k <= i then i - k else i - k + n))
    decreases k
  {
    if k > 0 {
      PrevTimesIndex(Prev(s).state, k - 1);
    }
  }

  /** n next clicks, or n prev clicks, on an album of n images come back to the start. */
  lemma FullCycle(s: Lightbox)
    requires Coherent(s) && |s.album| > 0
    ensures NextTimes(s, |s.album|) == s
    ensures PrevTimes(s, |s.album|) == s
  {
    NextTimesIndex(s, |s.album|);
    PrevTimesIndex(s, |s.album|);
  }

  /** The album query over [A, B, C] finds all three images, in order. */
  lemma ExampleQuery()
    ensures QueryAlbum(ExampleDoc, "x") == ExampleAlbum
  {
    ExampleQueryTail();
    assert Matches(ExampleDoc[0], "x");
  }

  lemma ExampleQueryTail()
    ensures QueryFrom(ExampleDoc, "x", 1) == ExampleAlbum[1..]
  {
    assert QueryFrom(ExampleDoc, "x", 3) == [];
    assert Matches(ExampleDoc[2], "x");
    assert QueryFrom(ExampleDoc, "x", 2) == ExampleAlbum[2..];
    assert Matches(ExampleDoc[1], "x");
  }

  /** Album [A, B, C]: clicking B loads the album and shows B at index 1. */
  lemma WalkthroughOpen()
    ensures Click(Initial, ExampleDoc, 1) == Lightbox(ExampleAlbum, 1, Some("B"), 1)
  {
    ExampleQuery();
    assert IsAlbumImage(ExampleDoc[1]);
    assert FindIndex(ExampleAlbum, 1) == 1;
  }

  /** From B, next shows C; next wraps to A; prev wraps back to C. */
  lemma WalkthroughNavigate()
    ensures var s1 := Lightbox(ExampleAlbum, 1, Some("B"), 1);
      var s2 := Next(s1).state;
      var s3 := Next(s2).state;
      var s4 := Prev(s3).state;
      && s2 == Lightbox(ExampleAlbum, 2, Some("C"), 1)
      && s3 == Lightbox(ExampleAlbum, 0, Some("A"), 1)
      && s4 == Lightbox(ExampleAlbum, 2, Some("C"), 1)
  {
  }

  const ExampleDoc: Document :=
    [Element(ImgTag, Some("x"), "A"), Element(ImgTag, Some("x"), "B"), Element(ImgTag, Some("x"), "C")]
  const ExampleAlbum: seq<Image> := [Image(0, "A"), Image(1, "B"), Image(2, "C")]

  /* ---------------- registration ---------------- */

  /** The modal element named by `modalId`: its `data-registered` value and
      whether the image, prev and next elements exist inside it. */
  datatype Modal = Modal(registered: Option<string>, hasImg: bool, hasPrev: bool, hasNext: bool)

  /** The page as registration sees it: the modal (None when the id is not
      found) and the number of lightboxes whose listeners are attached to it. */
  datatype Page = Page(modal: Option<Modal>, widgets: nat)

  /** `Boolean(modalElement.dataset.registered)`: any non-empty value counts. */
  predicate IsRegistered(m: Modal) {
    m.registered.Some? && m.registered.value != ""
  }

  predicate HasControls(m: Modal) {
    m.hasImg && m.hasPrev && m.hasNext
  }

  /** `registerLightbox`: attaches one lightbox (its document click, prev and
      next listeners) and sets the marker, unless the modal is missing, already
      marked, or lacks one of its elements. */
  function RegisterLightbox(p: Page): (r: Page)
    // a missing modal, a set marker or a missing element: nothing attached, nothing marked
    ensures (p.modal.None? || IsRegistered(p.modal.value) || !HasControls(p.modal.value)) ==> r == p
    ensures p.modal.Some? && !IsRegistered(p.modal.value) && HasControls(p.modal.value) ==>
              && r.widgets == p.widgets + 1
              && r.modal.Some? && IsRegistered(r.modal.value)
              && r.modal.value == p.modal.value.(registered := r.modal.value.registered)
  {
    match p.modal
    case None => p
    case Some(m) =>
      if IsRegistered(m) then p
      else if !HasControls(m) then p
      else Page(Some(m.(registered := Some("true"))), p.widgets + 1)
  }

  function RegisterTimes(p: Page, k: nat): Page
    decreases k
  {
    if k == 0 then p else RegisterTimes(RegisterLightbox(p), k - 1)
  }

  /** Registering again changes nothing. */
  lemma RegisterIdempotent(p: Page)
    ensures RegisterLightbox(RegisterLightbox(p)) == RegisterLightbox(p)
  {
  }

  /** Any number of registrations has the effect of one; on a page without a
      lightbox at most one is ever attached. */
  lemma {:induction false} RegisterTimesOnce(p: Page, k: nat)
    requires k >= 1
    ensures RegisterTimes(p, k) == RegisterLightbox(p)
    ensures p.widgets == 0 ==> RegisterTimes(p, k).widgets <= 1
    decreases k
  {
    if k > 1 {
      RegisterTimesOnce(RegisterLightbox(p), k - 1);
      RegisterIdempotent(p);
    }
  }
}

=== FILE: post_form.dfy ===
/**
 The post form of js/utils/post-form.js with the DOM abstracted away: the form
 values collected from its entries, the per-field error messages written by
 validation, the image-source controls, and the guard that keeps a second
 submit out while one is being handled.
 */
module PostForm {
  import opened Wrappers
  import opened PostSchema

  /* ---------------- form values ---------------- */

  /** A value in the collected form values: a text field, an uploaded file
      (by name), or `undefined`. */
  datatype FieldValue = Text(text: string) | File(fileName: string) | Undefined

  /** One `[key, value]` pair of `new FormData(form)`, in form order. */
  datatype Entry<K> = Entry(key: K, value: FieldValue)

  type Values = map<FieldName, FieldValue>

  /** No later entry has the same key as entry i. */
  predicate IsLastOfKey<K(==)>(entries: seq<Entry<K>>, i: int)
    requires 0 <= i < |entries|
  {
    forall j :: i < j < |entries| ==> entries[j].key != entries[i].key
  }

  /** The key occurs in the entries. */
  ghost predicate HasKey<K>(entries: seq<Entry<K>>, k: K) {
    exists i :: 0 <= i < |entries| && entries[i].key == k
  }

  /** `getFormValues`: the loop `formValues[key] = value` over the entries,
      starting from `acc`. */
  function CollectInto<K(==, !new)>(acc: map<K, FieldValue>, entries: seq<Entry<K>>): (r: map<K, FieldValue>)
    // the keys are the starting ones and those of the entries
    ensures forall k :: k in r <==> k in acc || HasKey(entries, k)
    // an entry no later entry overrides has the last word
    ensures forall i :: 0 <= i < |entries| && IsLastOfKey(entries, i) ==>
              entries[i].key in r && r[entries[i].key] == entries[i].value
    // a starting key no entry mentions keeps its value
    ensures forall k :: k in acc && !HasKey(entries, k) ==> r[k] == acc[k]
    decreases |entries|
  {
    if |entries| == 0 then acc
    else
      var e := entries[0];
      var r := CollectInto(acc[e.key := e.value], entries[1..]);
      CollectIntoStep(acc, entries, r);
      r
  }

  /** The first entry's write survives unless a later entry has its key. */
  lemma CollectIntoStep<K>(acc: map<K, FieldValue>, entries: seq<Entry<K>>, r: map<K, FieldValue>)
    requires |entries| > 0
    requires var acc' := acc[entries[0].key := entries[0].value];
      && (forall k :: k in r <==> k in acc' || HasKey(entries[1..], k))
      && (forall i :: 0 <= i < |entries[1..]| && IsLastOfKey(entries[1..], i) ==>
            entries[1..][i].key in r && r[entries[1..][i].key] == entries[1..][i].value)
      && (forall k :: k in acc' && !HasKey(entries[1..], k) ==> r[k] == acc'[k])
    ensures forall k :: k in r <==> k in acc || HasKey(entries, k)
    ensures forall i :: 0 <= i < |entries| && IsLastOfKey(entries, i) ==>
              entries[i].key in r && r[entries[i].key] == entries[i].value
    ensures forall k :: k in acc && !HasKey(entries, k) ==> r[k] == acc[k]
  {
    var rest := entries[1..];
    assert forall j :: 0 <= j < |rest| ==> rest[j] == entries[j + 1];
    forall k | HasKey(entries, k)
      ensures k == entries[0].key || HasKey(rest, k)
    {
      var i :| 0 <= i < |entries| && entries[i].key == k;
      if i > 0 {
        assert rest[i - 1].key == k;
      }
    }
    forall k | HasKey(rest, k)
      ensures HasKey(entries, k)
    {
      var j :| 0 <= j < |rest| && rest[j].key == k;
      assert entries[j + 1].key == k;
    }
    forall i | 0 <= i < |entries| && IsLastOfKey(entries, i)
      ensures entries[i].key in r && r[entries[i].key] == entries[i].value
    {
      if i == 0 {
        assert !HasKey(rest, entries[0].key);
      } else {
        assert IsLastOfKey(rest, i - 1);
      }
    }
  }

  function Collect<K(==, !new)>(entries: seq<Entry<K>>): (r: map<K, FieldValue>)
    ensures forall k :: k in r <==> HasKey(entries, k)
    ensures forall i :: 0 <= i < |entries| && IsLastOfKey(entries, i) ==>
              entries[i].key in r && r[entries[i].key] == entries[i].value
  {
    CollectInto(map[], entries)
  }

  /** `defaultValues.id`: an id when editing, `undefined` when creating. */
  function IdValue(defaultId: Option<string>): FieldValue {
    match defaultId
    case Some(id) => Text(id)
    case None => Undefined
  }

  /** The values the submit handler validates and hands on: the collected
      values with `id` replaced by the default values' id. */
  function SubmitValues(entries: seq<Entry<FieldName>>, defaultId: Option<string>): (r: Values)
    ensures forall k :: k in r <==> HasKey(entries, k) || k == Id
    ensures r[Id] == IdValue(defaultId)
    ensures forall i :: 0 <= i < |entries| && IsLastOfKey(entries, i) && entries[i].key != Id ==>
              entries[i].key in r && r[entries[i].key] == entries[i].value
  {
    Collect<FieldName>(entries)[Id := IdValue(defaultId)]
  }

  /** A text field of the values as yup's `string()` sees it; a missing or
      non-text field reads as the empty string. */
  function TextOf(values: Values, name: FieldName): string {
    if name in values && values[name].Text? then values[name].text else ""
  }

  /* ---------------- field errors ---------------- */

  /** The form as validation sees it: the custom validity message of each
      named control (the empty string when valid), whether the browser's own
      constraints pass, and whether `was-validated` has been added. */
  datatype Form = Form(custom: map<FieldName, string>, nativeValid: bool, wasValidated: bool)

  /** The fields whose errors are cleared before each validation. */
  const ResetNames: seq<FieldName> := [Title, Author, ImageUrl, Image]

  /** `setFieldError`: a control that is not in the form is left alone. */
  function SetFieldError(custom: map<FieldName, string>, name: FieldName, message: string): (r: map<FieldName, string>)
    ensures r.Keys == custom.Keys
    ensures forall n :: n in r ==> r[n] == if n == name then message else custom[n]
  {
    if name in custom then custom[name := message] else custom
  }

  /** Clears the message of every listed name. */
  function ClearErrors(custom: map<FieldName, string>, names: seq<FieldName>): (r: map<FieldName, string>)
    ensures r.Keys == custom.Keys
    ensures forall n :: n in custom ==> r[n] == if n in names then "" else custom[n]
    decreases |names|
  {
    if |names| == 0 then custom
    else ClearErrors(SetFieldError(custom, names[0], ""), names[1..])
  }

  /** The loop over `error.inner`: the first error of each path not yet in
      `logged` sets that field's message; later errors of the same path are
      skipped. */
  function ReportErrors(custom: map<FieldName, string>, errs: seq<FieldError>, logged: set<FieldName>): (r: map<FieldName, string>)
    ensures r.Keys == custom.Keys
    ensures forall n :: n in custom ==>
              r[n] == if n !in logged && FirstError(errs, n).Some? then FirstError(errs, n).value else custom[n]
    decreases |errs|
  {
    if |errs| == 0 then custom
    else
      var e := errs[0];
      if e.path in logged then ReportErrors(custom, errs[1..], logged)
      else ReportErrors(SetFieldError(custom, e.path, e.message), errs[1..], logged + {e.path})
  }

  /** No control carries a custom error. */
  ghost predicate AllClear(custom: map<FieldName, string>) {
    forall n :: n in custom ==> custom[n] == ""
  }

  function Clear(custom: map<FieldName, string>): (b: bool)
    ensures b <==> AllClear(custom)
  {
    forall n | n in custom :: custom[n] == ""
  }

  datatype Checked = Checked(form: Form, valid: bool)

  /** The messages validation leaves in the form: cleared, then the first
      schema error of each field. */
  function Reported(custom: map<FieldName, string>, title: string, author: string): map<FieldName, string> {
    ReportErrors(ClearErrors(custom, ResetNames), SchemaErrors(title, author), {})
  }

  lemma ReportedTitle(custom: map<FieldName, string>, title: string, author: string)
    ensures Reported(custom, title, author).Keys == custom.Keys
    ensures Title in custom ==> Reported(custom, title, author)[Title] == if title == "" then TitleRequired else ""
  {
  }

  lemma ReportedAuthor(custom: map<FieldName, string>, title: string, author: string)
    ensures Author in custom ==>
              Reported(custom, title, author)[Author] ==
                if author == "" then AuthorRequired else if !AuthorAccepted(author) then AuthorTwoWords else ""
  {
  }

  lemma ReportedImageUrl(custom: map<FieldName, string>, title: string, author: string)
    ensures ImageUrl in custom ==> Reported(custom, title, author)[ImageUrl] == ""
  {
    assert FirstError(SchemaErrors(title, author), ImageUrl).None?;
  }

  lemma ReportedImage(custom: map<FieldName, string>, title: string, author: string)
    ensures Image in custom ==> Reported(custom, title, author)[Image] == ""
  {
    assert FirstError(SchemaErrors(title, author), Image).None?;
  }

  lemma ReportedOthers(custom: map<FieldName, string>, title: string, author: string)
    ensures forall n :: n in custom && n !in ResetNames ==> Reported(custom, title, author)[n] == custom[n]
  {
    var cleared := ClearErrors(custom, ResetNames);
    var errs := SchemaErrors(title, author);
    forall n | n in custom && n !in ResetNames
      ensures Reported(custom, title, author)[n] == custom[n]
    {
      assert n != Title && n != Author;
      assert FirstError(errs, n).None?;
      assert cleared[n] == custom[n];
    }
  }

  /** `validatePostForm`: clear the old errors, report the first schema error
      of each field, then `checkValidity`, marking the form when it fails. */
  function ValidatePostForm(form: Form, values: Values): (r: Checked)
    ensures r.form.custom.Keys == form.custom.Keys && r.form.nativeValid == form.nativeValid
    ensures r.valid <==> form.nativeValid && AllClear(r.form.custom)
    ensures r.form.wasValidated == (form.wasValidated || !r.valid)
    ensures Title in form.custom ==>
              r.form.custom[Title] == if TextOf(values, Title) == "" then TitleRequired else ""
    ensures Author in form.custom ==>
              var author := TextOf(values, Author);
              r.form.custom[Author] ==
                if author == "" then AuthorRequired else if !AuthorAccepted(author) then AuthorTwoWords else ""
    ensures ImageUrl in form.custom ==> r.form.custom[ImageUrl] == ""
    ensures Image in form.custom ==> r.form.custom[Image] == ""
    // every other control keeps its message
    ensures forall n :: n in form.custom && n !in ResetNames ==> r.form.custom[n] == form.custom[n]
  {
    var title, author := TextOf(values, Title), TextOf(values, Author);
    ReportedTitle(form.custom, title, author);
    ReportedAuthor(form.custom, title, author);
    ReportedImageUrl(form.custom, title, author);
    ReportedImage(form.custom, title, author);
    ReportedOthers(form.custom, title, author);
    var custom := Reported(form.custom, title, author);
    var valid := form.nativeValid && Clear(custom);
    Checked(Form(custom, form.nativeValid, form.wasValidated || !valid), valid)
  }

  /** On a form with title and author fields and no stale error elsewhere,
      validation passes exactly when the browser's constraints hold, the title
      is not empty, and a space cuts the author into two sides each holding
      three consecutive non-space characters. */
  lemma ValidIff(form: Form, values: Values)
    requires Title in form.custom && Author in form.custom
    requires forall n :: n in form.custom && n !in ResetNames ==> form.custom[n] == ""
    ensures ValidatePostForm(form, values).valid <==>
              form.nativeValid && TextOf(values, Title) != "" && TwoSeparatedRuns(TextOf(values, Author))
  {
    var r := ValidatePostForm(form, values);
    var title, author := TextOf(values, Title), TextOf(values, Author);
    AuthorAcceptedIffRuns(author);
    EmptyAuthorNotAccepted();
    if form.nativeValid && title != "" && AuthorAccepted(author) {
      forall n | n in r.form.custom
        ensures r.form.custom[n] == ""
      {
        if n !in ResetNames {
          assert r.form.custom[n] == form.custom[n];
        }
      }
    }
  }

  /** Clearing is idempotent: clearing the same names twice is clearing them once. */
  lemma ClearErrorsIdempotent(custom: map<FieldName, string>, names: seq<FieldName>)
    ensures ClearErrors(ClearErrors(custom, names), names) == ClearErrors(custom, names)
  {
    var once := ClearErrors(custom, names);
    var twice := ClearErrors(once, names);
    assert twice.Keys == once.Keys;
    assert forall n :: n in twice ==> twice[n] == once[n];
  }

  /** The reset at the start of `validatePostForm` is harmless to repeat:
      validating a form whose reset fields are already cleared gives the same
      result as validating the form itself. */
  lemma ValidateAfterReset(form: Form, values: Values)
    ensures var cleared := form.(custom := ClearErrors(form.custom, ResetNames));
      ValidatePostForm(cleared, values) == ValidatePostForm(form, values)
  {
    ClearErrorsIdempotent(form.custom, ResetNames);
  }

  /* ---------------- image source controls ---------------- */

  const Picsum: string := "picsum"
  const Upload: string := "upload"

  /** A `[data-id="imageSource"]` control: its `data-image-source` value
      (None when absent) and whether it is hidden. */
  datatype Control = Control(source: Option<string>, hidden: bool)

  /** `renderImageSourceControl`: hide every control whose source differs from the selected one. */
  function RenderImageSourceControl(controls: seq<Control>, selected: string): (r: seq<Control>)
    ensures |r| == |controls|
    ensures forall i :: 0 <= i < |r| ==> r[i].source == controls[i].source
    ensures forall i :: 0 <= i < |r| ==> (r[i].hidden <==> controls[i].source != Some(selected))
    decreases |controls|
  {
    if |controls| == 0 then []
    else
      var c := controls[0];
      [c.(hidden := c.source != Some(selected))] + RenderImageSourceControl(controls[1..], selected)
  }

  /** Only the last selection counts: rendering for `a` and then for `b` is rendering for `b`. */
  lemma RenderLastWins(controls: seq<Control>, a: string, b: string)
    ensures RenderImageSourceControl(RenderImageSourceControl(controls, a), b) == RenderImageSourceControl(controls, b)
  {
    var r1 := RenderImageSourceControl(RenderImageSourceControl(controls, a), b);
    var r2 := RenderImageSourceControl(controls, b);
    assert |r1| == |r2|;
    assert forall i :: 0 <= i < |r1| ==> r1[i] == r2[i];
  }

  /** The visible controls are exactly those of the selected source: choosing
      picsum shows the picsum controls and hides the upload ones, and the other
      way round. */
  lemma RenderShowsSelected(controls: seq<Control>, selected: string)
    requires selected == Picsum || selected == Upload
    ensures var r := RenderImageSourceControl(controls, selected);
      && (forall i :: 0 <= i < |r| && controls[i].source == Some(selected) ==> !r[i].hidden)
      && (forall i :: (0 <= i < |r| && controls[i].source.Some? &&
                       (controls[i].source.value == Picsum || controls[i].source.value == Upload) &&
                       controls[i].source.value != selected) ==> r[i].hidden)
  {
  }

  /* ---------------- the submit guard ---------------- */

  /** Where the submit handler is: not running, awaiting validation, awaiting
      `onSubmit`, or stuck: the handler threw or `onSubmit` rejected after
      `submitting` was set, so the statements that clear it never ran. */
  datatype Stage = Idle | Validating(values: Values) | Saving | Stuck

  /** The `defaultValues` handed to `initPostForm`, as the submit handler reads
      it: only its `id`, absent (`undefined`) when creating a post. */
  datatype DefaultValues = DefaultValues(id: Option<string>)

  /** The state `initPostForm` keeps: the `submitting` flag, whether the
      loading button is shown, the handler's stage, the form, and the values
      handed to `onSubmit` so far. */
  datatype Submitter = Submitter(submitting: bool, loading: bool, stage: Stage, form: Form, saved: seq<Values>)

  function InitialSubmitter(form: Form): Submitter {
    Submitter(false, false, Idle, form, [])
  }

  /** The guard's invariant: `submitting` and the loading button are set
      exactly while a handler is in progress. */
  ghost predicate Guarded(g: Submitter) {
    (g.submitting <==> !g.stage.Idle?) && g.loading == g.submitting
  }

  /** The handler's last two statements: hide the loading button, clear `submitting`. */
  function Finish(g: Submitter): Submitter {
    g.(loading := false, submitting := false, stage := Idle)
  }

  /** A submit event. While `submitting` is set it is ignored; otherwise the
      loading button is shown, `submitting` set, and the values collected
      (with the default id). `validatePostForm` then clears the old messages
      before its first `await`, so they are already cleared while validation
      is awaited. A nullish `defaultValues` (None) makes `defaultValues.id`
      throw a TypeError right after `submitting` was set, and the handler is
      stuck with the form untouched. */
  function Submit(g: Submitter, entries: seq<Entry<FieldName>>, defaults: Option<DefaultValues>): (r: Submitter)
    ensures g.submitting ==> r == g
    ensures !g.submitting ==> r.submitting && r.loading && r.saved == g.saved
    ensures !g.submitting && defaults.Some? ==>
              && r.stage == Validating(SubmitValues(entries, defaults.value.id))
              && r.form.nativeValid == g.form.nativeValid && r.form.wasValidated == g.form.wasValidated
              && r.form.custom.Keys == g.form.custom.Keys
              && (forall n :: n in g.form.custom ==>
                    r.form.custom[n] == if n in ResetNames then "" else g.form.custom[n])
    ensures !g.submitting && defaults.None? ==> r.stage == Stuck && r.form == g.form
  {
    if g.submitting then g
    else
      var busy := g.(loading := true, submitting := true);
      match defaults
      case None => busy.(stage := Stuck)
      case Some(d) =>
        var cleared := g.form.(custom := ClearErrors(g.form.custom, ResetNames));
        busy.(stage := Validating(SubmitValues(entries, d.id)), form := cleared)
  }

  /** Validation has settled. `onSubmit` is called with the values only if it
      passed; otherwise the handler finishes. */
  function ValidationSettled(g: Submitter): (r: Submitter)
    ensures !g.stage.Validating? ==> r == g
    ensures g.stage.Validating? ==>
              var c := ValidatePostForm(g.form, g.stage.values);
              && r.form == c.form
              && (c.valid ==> r.saved == g.saved + [g.stage.values] && r.stage == Saving
                                && r.submitting == g.submitting && r.loading == g.loading)
              && (!c.valid ==> r.saved == g.saved && r.stage == Idle && !r.submitting && !r.loading)
  {
    match g.stage
    case Validating(values) =>
      var c := ValidatePostForm(g.form, values);
      if c.valid then g.(form := c.form, stage := Saving, saved := g.saved + [values])
      else Finish(g.(form := c.form))
    case _ => g
  }

  /** `onSubmit` has settled. When it resolved the handler finishes; when it
      rejected the handler stops before its last two statements, so
      `submitting` stays set. A missing `onSubmit` (the `?.` call) settles
      as resolved. */
  function SaveSettled(g: Submitter, resolved: bool): (r: Submitter)
    ensures !g.stage.Saving? ==> r == g
    ensures g.stage.Saving? && resolved ==>
              !r.submitting && !r.loading && r.stage == Idle && r.saved == g.saved && r.form == g.form
    ensures g.stage.Saving? && !resolved ==>
              && r.submitting == g.submitting && r.loading == g.loading && r.stage == Stuck
              && r.saved == g.saved && r.form == g.form
  {
    if !g.stage.Saving? then g
    else if resolved then Finish(g)
    else g.(stage := Stuck)
  }

  /** The events the form reacts to: a submit, or the settling of what the
      running handler awaits. A settling event with no handler waiting for it
      changes nothing. */
  datatype FormEvent =
    | SubmitEvent(entries: seq<Entry<FieldName>>, defaults: Option<DefaultValues>)
    | ValidationDone
    | SaveDone(resolved: bool)

  function SubmitStep(g: Submitter, e: FormEvent): Submitter {
    match e
    case SubmitEvent(entries, id) => Submit(g, entries, id)
    case ValidationDone => ValidationSettled(g)
    case SaveDone(resolved) => SaveSettled(g, resolved)
  }

  function SubmitRun(g: Submitter, events: seq<FormEvent>): Submitter
    decreases |events|
  {
    if |events| == 0 then g else SubmitRun(SubmitStep(g, events[0]), events[1..])
  }

  lemma SubmitStepGuarded(g: Submitter, e: FormEvent)
    requires Guarded(g)
    ensures Guarded(SubmitStep(g, e))
    ensures |SubmitStep(g, e).saved| <= |g.saved| + 1
  {
  }

  /** Every state the form reaches keeps the guard's invariant, and each call
      of `onSubmit` is matched by a distinct event. */
  lemma {:induction false} SubmitRunGuarded(g: Submitter, events: seq<FormEvent>)
    requires Guarded(g)
    ensures Guarded(SubmitRun(g, events))
    ensures |SubmitRun(g, events).saved| <= |g.saved| + |events|
    decreases |events|
  {
    if |events| > 0 {
      SubmitStepGuarded(g, events[0]);
      SubmitRunGuarded(SubmitStep(g, events[0]), events[1..]);
    }
  }

  /** A freshly initialised form (`let submitting = false`) keeps the guard's
      invariant through any sequence of events. */
  lemma FreshFormGuarded(form: Form, events: seq<FormEvent>)
    ensures Guarded(SubmitRun(InitialSubmitter(form), events))
    ensures |SubmitRun(InitialSubmitter(form), events).saved| <= |events|
  {
    SubmitRunGuarded(InitialSubmitter(form), events);
  }

  /** While a handler is in progress, further submits change nothing. */
  lemma {:induction false} SubmitsIgnoredWhileBusy(g: Submitter, events: seq<FormEvent>)
    requires g.submitting
    requires forall i :: 0 <= i < |events| ==> events[i].SubmitEvent?
    ensures SubmitRun(g, events) == g
    decreases |events|
  {
    if |events| > 0 {
      SubmitsIgnoredWhileBusy(g, events[1..]);
    }
  }

  /** Once the handler is stuck, the form never handles another submit. */
  lemma {:induction false} StuckIsFinal(g: Submitter, events: seq<FormEvent>)
    requires g.stage == Stuck && g.submitting
    ensures SubmitRun(g, events) == g
    decreases |events|
  {
    if |events| > 0 {
      StuckIsFinal(SubmitStep(g, events[0]), events[1..]);
    }
  }

  /** A submit handled to the end: from an idle form, submit, validation and
      (when it passed) a resolving `onSubmit` leave `submitting` cleared, and
      `onSubmit` has received the values exactly when validation passed. */
  lemma HandledSubmitClears(g: Submitter, entries: seq<Entry<FieldName>>, defaultId: Option<string>)
    requires Guarded(g) && g.stage.Idle?
    ensures var values := SubmitValues(entries, defaultId);
      var valid := ValidatePostForm(g.form, values).valid;
      var r := SubmitRun(g, [SubmitEvent(entries, Some(DefaultValues(defaultId))), ValidationDone, SaveDone(true)]);
      && !r.submitting && !r.loading && r.stage.Idle?
      && r.saved == (if valid then g.saved + [values] else g.saved)
  {
    var e1 := SubmitEvent(entries, Some(DefaultValues(defaultId)));
    RunOfThree(g, e1, ValidationDone, SaveDone(true));
    SubmitThenValidate(g, entries, defaultId);
  }

  /** A submit followed by the settling of its validation acts on the form as
      validating the form as it was: the messages cleared before the `await`
      make no difference. */
  lemma SubmitThenValidate(g: Submitter, entries: seq<Entry<FieldName>>, defaultId: Option<string>)
    requires !g.submitting
    ensures var values := SubmitValues(entries, defaultId);
      var c := ValidatePostForm(g.form, values);
      var r := ValidationSettled(Submit(g, entries, Some(DefaultValues(defaultId))));
      && r.form == c.form
      && (c.valid ==> r.stage == Saving && r.submitting && r.loading && r.saved == g.saved + [values])
      && (!c.valid ==> r.stage == Idle && !r.submitting && !r.loading && r.saved == g.saved)
  {
    var g1 := Submit(g, entries, Some(DefaultValues(defaultId)));
    assert g1.form == g.form.(custom := ClearErrors(g.form.custom, ResetNames));
    ValidateAfterReset(g.form, SubmitValues(entries, defaultId));
  }

  lemma RunOfThree(g: Submitter, e1: FormEvent, e2: FormEvent, e3: FormEvent)
    ensures SubmitRun(g, [e1, e2, e3]) == SubmitStep(SubmitStep(SubmitStep(g, e1), e2), e3)
  {
    var g1 := SubmitStep(g, e1);
    var g2 := SubmitStep(g1, e2);
    assert SubmitRun(g2, [e3]) == SubmitRun(SubmitStep(g2, e3), []) by {
      assert [e3][1..] == [];
    }
    assert SubmitRun(g1, [e2, e3]) == SubmitRun(g2, [e3]) by {
      assert [e2, e3][1..] == [e3];
    }
    assert SubmitRun(g, [e1, e2, e3]) == SubmitRun(g1, [e2, e3]) by {
      assert [e1, e2, e3][1..] == [e2, e3];
    }
  }

  /** Without `defaultValues`, the first submit on an idle form leaves the
      loading button shown and `submitting` set for good: `onSubmit` is never
      called, whatever happens afterwards. */
  lemma NullishDefaultsStick(g: Submitter, entries: seq<Entry<FieldName>>, events: seq<FormEvent>)
    requires Guarded(g) && g.stage.Idle?
    ensures var r := SubmitRun(g, [SubmitEvent(entries, None)] + events);
      r.submitting && r.loading && r.stage == Stuck && r.saved == g.saved
  {
    var all := [SubmitEvent(entries, None)] + events;
    var g1 := Submit(g, entries, None);
    assert all[1..] == events;
    StuckIsFinal(g1, events);
  }
}

=== FILE: post_schema.dfy ===
/**
 The validation schema of the post form (`getPostSchema` in
 js/utils/post-form.js), written as plain rules over strings: title and author
 are required, and the author must hold at least two words of three or more
 characters. The description carries no rule.
 */
module PostSchema {
  import opened Wrappers

  const Space: char := ' '

  /** The shortest word the author rule counts, and how many it needs. */
  const MinWordLength: nat := 3
  const MinWords: nat := 2

  const TitleRequired: string := "Please enter title"
  const AuthorRequired: string := "Please enter author"
  const AuthorTwoWords: string := "Please enter at least two words"

  /* ---------------- String.prototype.split on a single character ---------------- */

  /** `s.split(sep)`: the pieces between occurrences of `sep`, empty pieces
      included; the empty string splits into one empty piece. */
  function Split(s: string, sep: char): (r: seq<string>)
    ensures |r| >= 1
    ensures forall i :: 0 <= i < |r| ==> sep !in r[i]
    decreases |s|
  {
    if |s| == 0 then [""]
    else
      var rest := Split(s[1..], sep);
      if s[0] == sep then [""] + rest
      else
        assert forall i :: 1 <= i < |rest| ==> sep !in rest[i];
        [[s[0]] + rest[0]] + rest[1..]
  }

  /** `parts.join(sep)` */
  function Join(parts: seq<string>, sep: char): string
    decreases |parts|
  {
    if |parts| == 0 then ""
    else if |parts| == 1 then parts[0]
    else parts[0] + [sep] + Join(parts[1..], sep)
  }

  /** Joining the pieces again gives back the string that was split. */
  lemma {:induction false} JoinSplit(s: string, sep: char)
    ensures Join(Split(s, sep), sep) == s
    decreases |s|
  {
    if |s| > 0 {
      var rest := Split(s[1..], sep);
      JoinSplit(s[1..], sep);
      if s[0] == sep {
        assert Split(s, sep) == [""] + rest;
        assert ([""] + rest)[1..] == rest;
      } else {
        var r := Split(s, sep);
        assert r == [[s[0]] + rest[0]] + rest[1..];
        if |rest| == 1 {
          assert r == [[s[0]] + rest[0]];
        } else {
          assert r[1..] == rest[1..];
          assert Join(rest, sep) == rest[0] + [sep] + Join(rest[1..], sep);
        }
      }
    }
  }

  /** Splitting a join of separator-free pieces gives back the pieces. */
  lemma {:induction false} SplitJoin(parts: seq<string>, sep: char)
    requires |parts| >= 1
    requires forall i :: 0 <= i < |parts| ==> sep !in parts[i]
    ensures Split(Join(parts, sep), sep) == parts
    decreases |parts|
  {
    if |parts| == 1 {
      SplitFree(parts[0], sep);
    } else {
      SplitJoin(parts[1..], sep);
      SplitFree(parts[0], sep);
      SplitConcat(parts[0], Join(parts[1..], sep), sep);
      assert [parts[0]] + parts[1..] == parts;
    }
  }

  /** A string without the separator is a single piece. */
  lemma {:induction false} SplitFree(w: string, sep: char)
    requires sep !in w
    ensures Split(w, sep) == [w]
    decreases |w|
  {
    if |w| > 0 {
      assert sep !in w[1..];
      SplitFree(w[1..], sep);
      assert [w[0]] + w[1..] == w;
    }
  }

  /** One step of `Split`: a leading separator ends an empty first piece ... */
  lemma SplitConsSep(t: string, sep: char)
    ensures Split([sep] + t, sep) == [""] + Split(t, sep)
  {
    assert ([sep] + t)[1..] == t;
  }

  /** ... and any other leading character joins the first piece. */
  lemma SplitConsChar(c: char, t: string, sep: char)
    requires c != sep
    ensures Split([c] + t, sep) == [[c] + Split(t, sep)[0]] + Split(t, sep)[1..]
  {
    assert ([c] + t)[1..] == t;
  }

  /** Splitting at one separator: the pieces of the left part, then those of the right part. */
  lemma {:induction false} SplitConcat(a: string, b: string, sep: char)
    ensures Split(a + [sep] + b, sep) == Split(a, sep) + Split(b, sep)
    decreases |a|
  {
    if |a| == 0 {
      assert a + [sep] + b == [sep] + b;
      SplitConsSep(b, sep);
    } else {
      assert a == [a[0]] + a[1..];
      SplitConcat(a[1..], b, sep);
      SplitConcatStep(a[0], a[1..], b, sep);
    }
  }

  /** The inductive step of `SplitConcat`: putting one character in front. */
  lemma SplitConcatStep(c: char, t: string, b: string, sep: char)
    requires Split(t + [sep] + b, sep) == Split(t, sep) + Split(b, sep)
    ensures Split([c] + t + [sep] + b, sep) == Split([c] + t, sep) + Split(b, sep)
  {
    var u := t + [sep] + b;
    assert [c] + t + [sep] + b == [c] + u;
    if c == sep {
      SplitConsSep(t, sep);
      SplitConsSep(u, sep);
      assert ([""] + Split(t, sep)) + Split(b, sep) == [""] + (Split(t, sep) + Split(b, sep));
    } else {
      SplitConsChar(c, t, sep);
      SplitConsChar(c, u, sep);
      JoinFirstPiece(c, Split(t, sep), Split(b, sep));
    }
  }

  /** Prefixing a character to the first piece commutes with appending more pieces. */
  lemma JoinFirstPiece(c: char, rt: seq<string>, rb: seq<string>)
    requires |rt| >= 1
    ensures [[c] + (rt + rb)[0]] + (rt + rb)[1..] == ([[c] + rt[0]] + rt[1..]) + rb
  {
    assert (rt + rb)[0] == rt[0];
    assert (rt + rb)[1..] == rt[1..] + rb;
  }

  /* ---------------- the author rule ---------------- */

  /** The filter `(x) => !!x && x.length >= 3`: a non-empty piece of at least three characters. */
  predicate IsWord(x: string) {
    x != "" && |x| >= MinWordLength
  }

  function Filter(parts: seq<string>): (r: seq<string>)
    ensures forall i :: 0 <= i < |r| ==> IsWord(r[i])
    ensures |r| <= |parts|
  {
    if |parts| == 0 then []
    else if IsWord(parts[0]) then [parts[0]] + Filter(parts[1..])
    else Filter(parts[1..])
  }

  lemma {:induction false} FilterConcat(p: seq<string>, q: seq<string>)
    ensures Filter(p + q) == Filter(p) + Filter(q)
    decreases |p|
  {
    if |p| > 0 {
      assert (p + q)[1..] == p[1..] + q;
      FilterConcat(p[1..], q);
    } else {
      assert p + q == q;
    }
  }

  /** The words the author test counts: `value.split(' ').filter(...)`. */
  function Words(author: string): seq<string> {
    Filter(Split(author, Space))
  }

  /** The 'at-least-two-words' test. */
  predicate AuthorAccepted(author: string) {
    |Words(author)| >= MinWords
  }

  /* ---------------- the same rule without split ---------------- */

  predicate SpaceFree(s: string) {
    Space !in s
  }

  /** Three characters without a space start at position p. */
  predicate RunAt(s: string, p: int) {
    0 <= p && p + MinWordLength <= |s| && SpaceFree(s[p..p + MinWordLength])
  }

  ghost predicate HasRun(s: string) {
    exists p :: RunAt(s, p)
  }

  /** Some space cuts the author into two sides, each containing three
      consecutive non-space characters. */
  ghost predicate TwoSeparatedRuns(s: string) {
    exists k :: 0 <= k < |s| && s[k] == Space && HasRun(s[..k]) && HasRun(s[k + 1..])
  }

  lemma WordsAtSpace(s: string, k: int)
    requires 0 <= k < |s| && s[k] == Space
    ensures Words(s) == Words(s[..k]) + Words(s[k + 1..])
  {
    assert s == s[..k] + [Space] + s[k + 1..];
    SplitConcat(s[..k], s[k + 1..], Space);
    FilterConcat(Split(s[..k], Space), Split(s[k + 1..], Space));
  }

  lemma WordsSpaceFree(s: string)
    requires SpaceFree(s)
    ensures Words(s) == if |s| >= MinWordLength then [s] else []
  {
    SplitFree(s, Space);
  }

  lemma RunInPrefix(s: string, t: string, p: int)
    requires RunAt(s, p)
    ensures RunAt(s + t, p)
  {
    assert (s + t)[p..p + MinWordLength] == s[p..p + MinWordLength];
  }

  lemma RunInSuffix(s: string, t: string, p: int)
    requires RunAt(t, p)
    ensures RunAt(s + t, |s| + p)
  {
    assert (s + t)[|s| + p..|s| + p + MinWordLength] == t[p..p + MinWordLength];
  }

  /** A run of three non-space characters cannot straddle a space: the runs of
      a string are those of the two sides of any of its spaces. */
  lemma HasRunAtSpace(s: string, k: int)
    requires 0 <= k < |s| && s[k] == Space
    ensures HasRun(s) <==> HasRun(s[..k]) || HasRun(s[k + 1..])
  {
    var a, b := s[..k], s[k + 1..];
    assert s == a + ([Space] + b);
    assert s == (a + [Space]) + b;
    if HasRun(s) {
      var p :| RunAt(s, p);
      if p + MinWordLength <= k {
        assert a[p..p + MinWordLength] == s[p..p + MinWordLength];
        assert RunAt(a, p);
      } else if k < p {
        assert b[p - k - 1..p - k - 1 + MinWordLength] == s[p..p + MinWordLength];
        assert RunAt(b, p - k - 1);
      }
    }
    if HasRun(a) {
      var p :| RunAt(a, p);
      RunInPrefix(a, [Space] + b, p);
    }
    if HasRun(b) {
      var p :| RunAt(b, p);
      RunInSuffix(a + [Space], b, p);
    }
  }

  /** A string holds a counted word iff it holds three consecutive non-space characters. */
  lemma {:induction false} HasWordIffRun(s: string)
    ensures |Words(s)| >= 1 <==> HasRun(s)
    decreases |s|
  {
    if SpaceFree(s) {
      WordsSpaceFree(s);
      if |s| >= MinWordLength {
        assert RunAt(s, 0);
      } else {
        assert forall p :: !RunAt(s, p);
      }
    } else {
      var k :| 0 <= k < |s| && s[k] == Space;
      WordsAtSpace(s, k);
      HasRunAtSpace(s, k);
      HasWordIffRun(s[..k]);
      HasWordIffRun(s[k + 1..]);
    }
  }

  /** Two separated runs on the right of a space stay separated runs of the whole. */
  lemma TwoRunsRight(a: string, b: string)
    requires TwoSeparatedRuns(b)
    ensures TwoSeparatedRuns(a + [Space] + b)
  {
    var s := a + [Space] + b;
    var k :| 0 <= k < |b| && b[k] == Space && HasRun(b[..k]) && HasRun(b[k + 1..]);
    var p :| RunAt(b[..k], p);
    var k' := |a| + 1 + k;
    assert s[..k'] == (a + [Space]) + b[..k];
    RunInSuffix(a + [Space], b[..k], p);
    assert s[k' + 1..] == b[k + 1..];
    assert s[k'] == Space;
  }

  /** Two separated runs on the left of a space stay separated runs of the whole. */
  lemma TwoRunsLeft(a: string, b: string)
    requires TwoSeparatedRuns(a)
    ensures TwoSeparatedRuns(a + [Space] + b)
  {
    var s := a + [Space] + b;
    var k :| 0 <= k < |a| && a[k] == Space && HasRun(a[..k]) && HasRun(a[k + 1..]);
    var p :| RunAt(a[k + 1..], p);
    assert s[k + 1..] == a[k + 1..] + ([Space] + b);
    RunInPrefix(a[k + 1..], [Space] + b, p);
    assert s[..k] == a[..k];
    assert s[k] == Space;
  }

  lemma RunsAccepted(s: string)
    requires TwoSeparatedRuns(s)
    ensures AuthorAccepted(s)
  {
    var k :| 0 <= k < |s| && s[k] == Space && HasRun(s[..k]) && HasRun(s[k + 1..]);
    WordsAtSpace(s, k);
    HasWordIffRun(s[..k]);
    HasWordIffRun(s[k + 1..]);
  }

  lemma {:induction false} AcceptedRuns(s: string)
    requires AuthorAccepted(s)
    ensures TwoSeparatedRuns(s)
    decreases |s|
  {
    if SpaceFree(s) {
      WordsSpaceFree(s);
    } else {
      var k :| 0 <= k < |s| && s[k] == Space;
      var a, b := s[..k], s[k + 1..];
      assert s == a + [Space] + b;
      WordsAtSpace(s, k);
      HasWordIffRun(a);
      HasWordIffRun(b);
      if |Words(a)| == 0 {
        // both words lie right of the space
        AcceptedRuns(b);
        TwoRunsRight(a, b);
      } else if |Words(b)| == 0 {
        // both words lie left of the space
        AcceptedRuns(a);
        TwoRunsLeft(a, b);
      }
    }
  }

  /** The author test accepts exactly the names that a space cuts into two
      sides each holding three consecutive non-space characters. */
  lemma AuthorAcceptedIffRuns(s: string)
    ensures AuthorAccepted(s) <==> TwoSeparatedRuns(s)
  {
    if TwoSeparatedRuns(s) {
      RunsAccepted(s);
    }
    if AuthorAccepted(s) {
      AcceptedRuns(s);
    }
  }

  /** A name without a space is never accepted, however long. */
  lemma SingleWordRejected(s: string)
    requires SpaceFree(s)
    ensures !AuthorAccepted(s)
  {
    WordsSpaceFree(s);
  }

  /** Two space-free words of three or more characters joined by one space are accepted. */
  lemma TwoWordsAccepted(first: string, last: string)
    requires SpaceFree(first) && SpaceFree(last)
    requires |first| >= MinWordLength && |last| >= MinWordLength
    ensures AuthorAccepted(first + [Space] + last)
  {
    var s := first + [Space] + last;
    assert s[..|first|] == first && s[|first| + 1..] == last;
    WordsAtSpace(s, |first|);
    WordsSpaceFree(first);
    WordsSpaceFree(last);
  }

  /* ---------------- the schema ---------------- */

  /** How a control `name` is represented: the names the form code refers to
      have their own constructors, any other name is kept as text. */
  datatype FieldKey = Title | Author | Description | ImageSource | ImageUrl | Image | Id | OtherName(name: string)

  /** The text of each name with its own constructor. */
  function KnownSpelling(k: FieldKey): string
    requires !k.OtherName?
  {
    match k
    case Title => "title"
    case Author => "author"
    case Description => "description"
    case ImageSource => "imageSource"
    case ImageUrl => "imageUrl"
    case Image => "image"
    case Id => "id"
  }

  /** A name kept as text is none of the names with their own constructor,
      so every string has exactly one representation. */
  predicate Canonical(k: FieldKey) {
    k.OtherName? ==>
      && k.name != "title" && k.name != "author" && k.name != "description"
      && k.name != "imageSource" && k.name != "imageUrl" && k.name != "image" && k.name != "id"
  }

  /** A control name, the key of the form's value object. */
  type FieldName = k: FieldKey | Canonical(k) witness Title

  /** The name a string denotes. */
  function NameOf(s: string): (n: FieldName)
    ensures n.OtherName? <==> Canonical(OtherName(s))
    ensures n.OtherName? ==> n.name == s
    ensures !n.OtherName? ==> KnownSpelling(n) == s
  {
    if s == "title" then Title
    else if s == "author" then Author
    else if s == "description" then Description
    else if s == "imageSource" then ImageSource
    else if s == "imageUrl" then ImageUrl
    else if s == "image" then Image
    else if s == "id" then Id
    else OtherName(s)
  }

  /** The string a name stands for. */
  function Spelling(n: FieldName): (s: string)
    ensures n.OtherName? ==> s == n.name
    ensures !n.OtherName? ==> s == KnownSpelling(n)
  {
    if n.OtherName? then n.name else KnownSpelling(n)
  }

  /** Names and strings correspond one to one: two names are the same object
      key exactly when they are the same name. */
  lemma NameOfSpelling(n: FieldName)
    ensures NameOf(Spelling(n)) == n
  {
  }

  lemma SpellingOfNameOf(s: string)
    ensures Spelling(NameOf(s)) == s
  {
  }

  /** One entry of yup's `error.inner`: the field path and its message. */
  datatype FieldError = FieldError(path: FieldName, message: string)

  /** The errors the schema reports with `abortEarly: false`, in the order
      its rules are declared: title required, author required, author test.
      An empty author fails both of its rules. */
  function SchemaErrors(title: string, author: string): (errs: seq<FieldError>)
    ensures forall i :: 0 <= i < |errs| ==> errs[i].path == Title || errs[i].path == Author
    ensures errs == [] <==> title != "" && AuthorAccepted(author)
    ensures FirstError(errs, Title) == if title == "" then Some(TitleRequired) else None
    ensures FirstError(errs, Author) ==
              if author == "" then Some(AuthorRequired)
              else if !AuthorAccepted(author) then Some(AuthorTwoWords)
              else None
  {
    (if title == "" then [FieldError(Title, TitleRequired)] else [])
    + (if author == "" then [FieldError(Author, AuthorRequired)] else [])
    + (if AuthorAccepted(author) then [] else [FieldError(Author, AuthorTwoWords)])
  }

  /** The message of the first error reported for `path`, if any. */
  function FirstError(errs: seq<FieldError>, path: FieldName): (r: Option<string>)
    ensures r.None? <==> forall i :: 0 <= i < |errs| ==> errs[i].path != path
    ensures r.Some? ==> exists i :: 0 <= i < |errs| && errs[i] == FieldError(path, r.value) &&
                                      forall j :: 0 <= j < i ==> errs[j].path != path
  {
    if |errs| == 0 then None
    else if errs[0].path == path then Some(errs[0].message)
    else
      var r := FirstError(errs[1..], path);
      assert forall i :: 1 <= i < |errs| ==> errs[i] == errs[1..][i - 1];
      r
  }

  /** The author cannot be accepted when empty, so an empty author is
      reported as missing rather than as too short. */
  lemma EmptyAuthorNotAccepted()
    ensures !AuthorAccepted("")
  {
    assert Split("", Space) == [""];
  }
}

=== FILE: wrappers.dfy ===
/** Optional values: an absent DOM attribute, an unset field, a missing error. */
module Wrappers {

  datatype Option<+T> = None | Some(value: T)
}
